=== FILE: README.md ===
# BRM5 mission planner — a Dafny model of its core

The planner is a small web application. Users register with a username, a password and a platoon string:

- a base colour, `Red`, `Green` or `Blue`;
- or a base colour followed by `_Lieutenant`.

They log in with a session token, and list, create, update and delete the missions filed for a platoon. This project models four pieces:

- the in-memory store (`src/server/storage.js`);
- the mission handlers (`src/server/missions.js`);
- registration, login and token verification (`src/server/auth.js`);
- the browser client's platoon helpers and form checks (`src/client./script.js`).

Each handler is a pure function from a request and a store to a response and the store it leaves behind. Clock readings and the password-hash salt arrive in an `Env` value. bcrypt and the token signer arrive as functions in a `Crypto` value. What the program relies on from them is stated as the predicates `HashSound` and `SignSound`.

Modules:

- `Maybe` (in `maybe.dfy`): the optional value a lookup returns.
- `JsString`, `JsValue`: the JavaScript string operations and property values the program uses. `replace` with a string pattern changes only the first occurrence. `split`, `includes` and `trim` (with the ECMAScript white-space set) are modelled as well.
- `Platoon`: the six accepted platoon strings and the first-occurrence `replace('_Lieutenant', …)` that yields base name, display form and colour.
- `Storage`: users keyed by username; missions keyed by id, kept with their insertion order so that `Object.values` enumerates them in order.
- `StorageAsWritten`: the store's two truthiness lookups as written, where plain objects also see members inherited from `Object.prototype` (see Findings).
- `Http`: requests, responses, outcomes and the external collaborators.
- `Missions`, `Auth`: the handlers and their routers.
- `Client`: `register`, `login` and `createMission` form checks, plus lemmas tying them to the server.

What the code checks and what it does not:

- The server never checks the description or the custom type.
- Updates do not check the platoon. A body with no platoon makes `platoon.replace` throw, and the caller gets 500.
- Update and delete answer success for an id that is not stored.
- The mission handlers only test that some bearer text is present; they never verify the token.
- A user's role is not a field of its own: it is read from the platoon string (`_Lieutenant`).
- The stored user field is named `password`, and it holds the hash.
- An update overwrites all five of its keys, including keys the request left out.

## Model

| member | source | states |
|---|---|---|
| JsString.IndexOf | src/client./script.js:67 | the index returned is an occurrence at or after `from`, no earlier one exists, and `None` means no occurrence at all |
| JsString.IncludesMeansOccurs | src/client./script.js:67 | `includes` holds exactly when the pattern occurs at some index |
| JsString.ReplaceFirst | src/client./script.js:85 | string `replace` splices the replacement in at the first occurrence only; a string without the pattern is returned unchanged; the length changes by the replacement's length minus the pattern's |
| JsString.ReplaceAtFront | src/server/missions.js:35 | a pattern at the very front is swapped for the replacement and the rest kept |
| JsString.SecondSlashField | src/server/missions.js:104 | `split('/')[1]` is undefined exactly when there is no `/`; otherwise it is the slash-free text right after the first `/`, up to the next `/` or the end |
| JsString.UpToSlash | src/server/missions.js:104 | the piece is a prefix with no `/`, ending at a `/` or at the end |
| JsString.LeadingBlank | src/client./script.js:220 | the leading white space is all white space and stops at a non-white character |
| JsString.TrailingBlank | src/client./script.js:227 | the trailing white space is all white space and starts after a non-white character |
| JsString.Trim | src/client./script.js:220-227 | `trim()` is empty exactly when the input is all white space; a non-empty result neither starts nor ends with white space |
| JsString.TrimFacts | src/client./script.js:227 | cutting at the leading and trailing white-space boundaries leaves only white space outside the cut |
| JsString.TrimIsInfix | src/client./script.js:220 | the trimmed string is a contiguous slice of the input with only white space on either side |
| Platoon.SuffixIsFirstOccurrence | src/client./script.js:80 | in `b_Lieutenant`, with no `_` in `b`, the suffix's first occurrence is right after `b` |
| Platoon.ReplaceSuffix | src/client./script.js:80 | replacing `_Lieutenant` in `b_Lieutenant` yields `b` plus the replacement, and the suffix is found |
| Platoon.NoUnderscoreUnchanged | src/client./script.js:85 | a string with no `_` has no `_Lieutenant` and `replace` leaves it as it is |
| Platoon.BaseFacts | src/server/auth.js:37 | each base colour is its own base name and display form, and is not a lieutenant |
| Platoon.LieutenantFacts | src/server/auth.js:37 | `X_Lieutenant` has base name `X`, displays as `X (Lieutenant)`, and is a lieutenant |
| Platoon.LieutenantBase | src/server/missions.js:71 | every accepted lieutenant string is a base colour followed by `_Lieutenant` |
| Platoon.PlatoonNameOfValid | src/server/missions.js:71-77 | the base name of every accepted platoon is Red, Green or Blue: the string itself for a base platoon, the string without its suffix for a lieutenant; such a string is a lieutenant exactly when it is not a base colour |
| Platoon.FormatPlatoonOfValid | src/client./script.js:79-81 | the display form leaves base platoons unchanged and turns `X_Lieutenant` into `X (Lieutenant)` |
| Platoon.LieutenantRoleAndName | src/client./script.js:67 | the role test holds exactly when `_Lieutenant` occurs; then the base name is eleven characters shorter, otherwise it is the string itself |
| Platoon.LieutenantColorMatchesBase | src/client./script.js:89-97 | a lieutenant string is coloured like its base platoon |
| Platoon.PlatoonColorIsWhiteUnlessBase | src/client./script.js:89-97 | a colour other than white is given exactly when the base name is Red, Green or Blue, and every accepted platoon gets one |
| Platoon.ColorOfMisplacedSuffix | src/client./script.js:90-92 | `_LieutenantRed` is not an accepted platoon, yet is coloured red, because only the base name decides |
| Storage.EmptyIsValid | src/server/storage.js:4-7 | the start-up store satisfies the store invariant |
| Storage.SaveUser | src/server/storage.js:18-21 | after a save, the name looks up the saved user and every other name looks up what it did before; missions stay as they were, and so does the invariant |
| Storage.FoundUserHasName | src/server/storage.js:23-25 | in a valid store a found user carries the username it was looked up by |
| Storage.LastNamed | src/server/storage.js:19 | the user found carries the name and sits at a position of the sequence after which no user has that name; if none is found, no user has that name |
| Storage.LookupAfterSaves | src/server/storage.js:18-25 | after a series of saves a lookup yields the last user saved under that name, or the earlier answer if the name was never saved |
| Storage.NeverSavedIsNull | src/server/storage.js:24 | starting from the start-up store, a name never saved looks up as null |
| Storage.SaveMission | src/server/storage.js:27-30 | the record is filed under its id; other ids keep their records; a new id is enumerated last and an existing id keeps its place; users and the invariant are kept |
| Storage.Matching | src/server/storage.js:33-35 | the filter keeps only records with that platoon, every kept record is stored, and every stored record with that platoon is kept |
| Storage.GetMissionsByPlatoon | src/server/storage.js:32-37 | the listing contains exactly the stored records whose platoon equals the value, and is empty exactly when none has it |
| Storage.NoDuplicatesTail | src/server/storage.js:33 | the tail of a repetition-free id list is repetition-free and lacks the head |
| Storage.MatchingIdsStep | src/server/storage.js:33-35 | the matching ids of a list are those of its tail, plus its head when the head matches |
| Storage.MatchingCount | src/server/storage.js:33-35 | the filter yields as many records as there are matching ids, with none lost or repeated |
| Storage.GetMissionsByPlatoonCount | src/server/storage.js:32-37 | the length of the listing is the number of stored missions with that platoon |
| Storage.MatchingAppend | src/server/storage.js:33-35 | filtering two stretches of the order, one after the other, equals filtering the whole |
| Storage.MatchingIgnoresOthers | src/server/storage.js:33-35 | changing a record under an id outside the order leaves the listing unchanged |
| Storage.SaveNewMissionListing | src/server/storage.js:27-37 | a record saved under a new id is listed after every earlier mission when its platoon matches; otherwise the listing does not change |
| Storage.UpdateMission | src/server/storage.js:39-44 | for a stored id the record becomes `{...old, ...update}`: keys are the union, the update's keys take its values, and the others keep the old ones; an absent id changes nothing; other missions, order and users are kept |
| Storage.Without | src/server/storage.js:48 | removing an id keeps every other id, in its order, and no copy of the removed one: an absent id leaves the list as it is, and in a repetition-free list the result is the list with the id's one position cut out |
| Storage.WithoutAtHead | src/server/storage.js:48 | removing the head of a repetition-free list leaves exactly its tail |
| Storage.ConsRemoval | src/server/storage.js:48 | cutting position `i` of a list and putting an element in front cuts position `i + 1` of the longer list |
| Storage.WithoutPastHead | src/server/storage.js:48 | when the head is not the removed id, the cut position moves one further |
| Storage.WithoutPastHeadDistinct | src/server/storage.js:48 | when the head is not the removed id, the result stays repetition-free |
| Storage.DeleteMission | src/server/storage.js:46-51 | exactly the id is removed when present, every other record is kept, an absent id changes nothing, and the invariant is kept |
| Storage.DeleteIdempotent | src/server/storage.js:46-51 | deleting twice leaves the store of one delete |
| Storage.MatchingAgrees | src/server/storage.js:33-35 | the listing depends only on the records filed under the ids of the order |
| Storage.MatchingAround | src/server/storage.js:33-35 | the listing of an order is the listing before an entry, that entry's listing and the listing after it |
| Storage.DeleteListingAt | src/server/storage.js:46-51 | after deleting the id at position `i` of the order, the listing is that of the ids before and after it |
| Storage.DeleteListing | src/server/storage.js:32-51 | deleting a stored mission removes exactly its entry from every platoon listing; the missions before and after it are listed as before, in order |
| StorageAsWritten.GetUserByUsernameAsWritten | src/server/storage.js:23-25 | a plain-object lookup finds an own user exactly when the corrected lookup does, and finds nothing only when the name is also not an inherited name (the eleven Object.prototype methods and `__proto__`) |
| StorageAsWritten.UpdateMissionAsWritten | src/server/storage.js:39-44 | for a stored id, and for any id that is not an inherited method name, the update as written is the corrected update; for an absent inherited method name it files the update record as a new mission |
| StorageAsWritten.InheritedNameLooksRegistered | src/server/storage.js:24 | on the start-up store, `constructor` and `__proto__` are free, yet the lookup as written finds something under each |
| StorageAsWritten.InheritedIdUpdateInserts | src/server/storage.js:40-41 | updating the absent id `toString` changes nothing in the corrected store, yet inserts a mission as written |
| Http.BearerHeaderRoundTrip | src/server/auth.js:129 | a header built from a token gives back that token after the `Bearer ` prefix is stripped, and counts as a token exactly when it is non-empty |
| Http.NoTokenCases | src/server/missions.js:35-38 | a missing authorization header, or one that is only the prefix, carries no token |
| Missions.GetMissions | src/server/missions.js:33-55 | 401 without a token, 400 without a platoon query, otherwise exactly the missions stored for that platoon value; the store does not change |
| Missions.NewMission | src/server/missions.js:76-86 | the created record has the six keys, the fresh id, the base colour of an accepted platoon, the custom type exactly when the type is `Custom`, the description as sent, the date or now, and a creation time of now |
| Missions.CreateMission | src/server/missions.js:57-95 | 401 without a token; 400 without platoon or type, or with an unlisted platoon, with the store unchanged; otherwise 200 and the store gains exactly the new record under the fresh id |
| Missions.UpdateRecord | src/server/missions.js:104-113 | the update record always has the five keys: the id from params or path, the platoon without `_Lieutenant`, the resolved type, the description, and the date or now |
| Missions.UpdateMissionHandler | src/server/missions.js:97-122 | 401 without a token; 500 when the body has no platoon; otherwise 200 with the update record merged into the mission under that id; an absent id changes nothing; the set of ids and the users are kept |
| Missions.DeleteMissionHandler | src/server/missions.js:124-140 | 401 without a token; otherwise 200 with exactly that id removed, whether or not it existed; every other record is kept |
| Missions.HandleMissions | src/server/missions.js:6-31 | `GET /` reaches the listing, `POST /` the creation, `PUT /…` the update and `DELETE /…` the delete handler; 404 exactly for requests no route takes; a routed request without a token gets 401 and leaves the store unchanged; users never change and the store invariant is kept |
| Missions.UpdateKeepsShape | src/server/missions.js:107-116 | an update keeps every stored mission in the six-key shape |
| Missions.HandleMissionsKeepsShape | src/server/missions.js:6-31 | every request keeps stored missions in the six-key shape |
| Missions.CreateDeleteKeepBasePlatoons | src/server/missions.js:77-89 | creating and deleting keep every stored platoon a base colour |
| Missions.UpdateCanLeaveBasePlatoons | src/server/missions.js:109 | an update whose platoon's base name is not a base colour stores that platoon, breaking the base-colour invariant |
| Missions.PurpleIsNoPlatoon | src/server/missions.js:109 | `Purple` is such a platoon: not accepted, and its own base name |
| Missions.UpdateKeepsOnlyCreatedAt | src/server/missions.js:107-116 | on a six-key mission the merge keeps only `createdAt`; every other key takes the value in the update record |
| Missions.CreatedMissionIsListed | src/server/missions.js:43-49 | a created mission is listed last to anyone who asks for its base colour |
| Missions.DeleteTwice | src/server/missions.js:131-134 | deleting the same id twice answers success both times, and the store is as after one delete |
| Auth.NewUser | src/server/auth.js:50-59 | the new user has the fresh id, the username and platoon as sent, the hash of the password (not the password), and now |
| Auth.RegisterUser | src/server/auth.js:28-83 | 400 for a missing field or an unlisted platoon, 409 for a taken name, all with the store unchanged; otherwise the store gains exactly the new user, and the answer holds a token for its claims plus only its username and platoon |
| Auth.LoginUser | src/server/auth.js:85-125 | 400 exactly when a field is missing; one "Invalid credentials" 401 for an unknown user and for a wrong password alike; 200 exactly when both fields are present, the user exists and the password matches its hash, and then a token for the stored user's claims; the store never changes |
| Auth.VerifyToken | src/server/auth.js:127-141 | 401 without a token or for a token the signer rejects; otherwise the decoded claims |
| Auth.HandleAuth | src/server/auth.js:10-26 | `POST /register`, `POST /login` and `POST /verify` reach registration, login and token verification; 404 exactly for unrouted requests; only registration changes the store, and only its users |
| Auth.LoginFailuresIndistinguishable | src/server/auth.js:95-102 | an unknown user and a wrong password get the identical answer |
| Auth.LoginMissingFieldIgnoresStore | src/server/auth.js:89-91 | a login missing a field is answered before any lookup, whatever the store holds |
| Auth.RegisterTwiceConflicts | src/server/auth.js:42-47 | a second registration of a name is refused with 409, whatever its password or platoon |
| Auth.RegisterThenLogin | src/server/auth.js:50-119 | after registering, logging in with the same name and password succeeds; the answer holds the registered username and platoon and a token signed for the new user's claims |
| Auth.IssuedTokenVerifies | src/server/auth.js:64-68 | a token from register or login, sent back as a bearer header to `/verify`, is accepted and decodes to the reported username and platoon |
| Client.Register | src/client./script.js:112-120 | the form posts exactly when all three fields are filled, with exactly those three fields; otherwise it alerts |
| Client.Login | src/client./script.js:151-158 | the form posts exactly when both fields are filled, with exactly those two fields; otherwise it alerts |
| Client.CreateMission | src/client./script.js:213-230 | `Custom` with a blank custom type, or a blank description, alerts; otherwise the form posts the five fields as entered, and the settled type is the custom type exactly when `Custom` was selected |
| Client.ClientRegisterHasFields | src/server/auth.js:32-34 | a registration the client sends always passes the server's missing-field check |
| Client.ClientLoginHasFields | src/server/auth.js:89-91 | a login the client sends is never answered 400 |
| Client.ClientTypeIsStoredType | src/server/missions.js:82 | the type the client settled on is the type the server stores |

## Left out

- `src/server/index.js` is not part of this model: the Express app, static files, the mount points and the listening server.
- The DOM, `fetch`, `localStorage`, alerts and the rest of the client's page handling are left out. `loadMissions` and the edit stubs are left out too. The form checks are modelled as functions of the field values.
- bcrypt and JSON Web Tokens are not modelled internally. They are parameters (`Crypto`), and what the program relies on is the two predicates `HashSound` and `SignSound`. The secret key and the bcrypt cost are not modelled.
- The signer ignores time: the `iat` claim and the 7-day `exp` claim (`expiresIn: '7d'`) are missing from tokens and from the decoded `/verify` body. Tokens never expire in the model, and a token depends only on its claims, so the model cannot express that a later login gets a different token.
- Auth.RegisterThenLogin: states that the login token is signed for the registered user's claims, not that it differs from the registration token, because the signer ignores the issue time.
- Clock readings, `Date.now().toString()` as the id, and the salt are parameters (`Env`). Two requests in the same millisecond get the same id. The model lets the caller pick the id, so this clash is only visible as `CreateMission` replacing a record already filed under it.
- `createMission` reads the clock twice, once for the default `date` and once for `createdAt`. The model reads one `now`, so a mission sent without a date gets a `date` exactly equal to its `createdAt`; in the program the two readings can be a millisecond apart.
- Asynchrony and concurrent requests are left out: each handler runs to completion on one store.
- Request values are strings or absent. Non-string JSON values (numbers, booleans, arrays, nested objects) are not modelled. The 500 answers that such values would provoke, and bcrypt errors, are left out with them.
- The outer `catch` of `handleMissions` (500 "Server error") is left out. Every handler catches its own errors, so it cannot fire.
- Object enumeration order is modelled as insertion order. JavaScript lists integer-like keys first in numeric order; that rule is left out.
- StorageAsWritten.UpdateMissionAsWritten: treats the id `__proto__` like an ordinary id. In the program, the truthiness test passes for it and the assignment replaces the missions object's prototype instead of adding a key; that prototype change is not modelled. (The user lookup does include `__proto__`.)
- Auth.RegisterUser, Auth.LoginUser, Missions.UpdateMissionHandler: these handlers use the own-property lookups of `Storage`, not the plain-object lookups the program performs. On the inherited names they differ from the program, as the Findings table describes. Registering `constructor` or `__proto__` on an empty store answers 200 in the model and 409 in the program. An update of the absent id `toString` changes nothing in the model and inserts the update record in the program. A login as `constructor` answers 401 in the model, while the program reaches `bcrypt.compare` with an undefined hash and answers 500 "Login failed".
- Logging (`console.log`, `console.error`) is left out.
- Platoon.PlatoonColorIsWhiteUnlessBase: does not claim that every string outside the six gets white. The code decides by the base name alone, so `_LieutenantRed` is coloured red (`Platoon.ColorOfMisplacedSuffix`). The lemma states the exact rule instead.
- The server does not validate the description or the custom type. A request can store an undefined description or mission type, and the model keeps that as `Undefined`.

## Findings

| source | as written | input that shows it | evidently intended | confidence | as-written member | corrected member |
|---|---|---|---|---|---|---|
| src/server/storage.js:24 | the lookup `storage.users[username]` (null when falsy) on a plain object also finds members inherited from `Object.prototype` | registering the username `constructor` (or `__proto__`) on an empty store is answered 409 "Username already exists" | only users that were saved are found | not executed | StorageAsWritten.InheritedNameLooksRegistered | Storage.NeverSavedIsNull |
| src/server/storage.js:40-41 | `if (storage.missions[mission.id])` passes for an inherited member, and the spread then files the update record | an update (PUT) of the absent id `toString` creates a mission, where any other absent id changes nothing | an update of an id that is not stored changes nothing | not executed | StorageAsWritten.InheritedIdUpdateInserts | Storage.UpdateMission |

=== FILE: auth.dfy ===
/**
 * Registration, login and token verification. Passwords are stored only as
 * their hash; tokens carry the claims `{id, username, platoon}`; a failed
 * login looks the same whether the user is unknown or the password wrong.
 */
module Auth {
  import opened Maybe
  import opened JsValue
  import opened Platoon
  import opened Storage
  import opened Http

  const InvalidCredentials := Response(401, ErrorMessage("Invalid credentials"))

  /** The claims a token issued for `u` carries. */
  function ClaimsOf(u: User): Claims {
    Claims(u.id, u.username, u.platoon)
  }

  /** The three register fields are present (truthy). */
  predicate HasRegisterFields(body: Record) {
    Truthy(Field(body, "username")) && Truthy(Field(body, "password")) && Truthy(Field(body, "platoon"))
  }

  /**
   * The user `registerUser` files: a fresh id, the username and platoon as
   * sent, the hash of the password (never the password itself) and now.
   */
  function NewUser(body: Record, env: Env, crypto: Crypto): (u: User)
    requires HasRegisterFields(body)
    ensures u.id == env.freshId && u.createdAt == env.now
    ensures Str(u.username) == Field(body, "username") && Str(u.platoon) == Field(body, "platoon")
    ensures u.password == crypto.hash(Field(body, "password").s, env.salt)
  {
    User(env.freshId, Field(body, "username").s, crypto.hash(Field(body, "password").s, env.salt),
         Field(body, "platoon").s, env.now)
  }

  /**
   * `registerUser`: 400 when a field is missing or the platoon is not one of
   * the six strings; 409 when the username is taken; otherwise the store
   * gains exactly the new user, and the answer carries a token for its claims
   * and only its username and platoon. Missions never change.
   */
  function RegisterUser(req: Request, env: Env, crypto: Crypto, s: Store): (o: Outcome)
    ensures !HasRegisterFields(req.body) ==>
              o == Outcome(Response(400, ErrorMessage("Missing required fields")), s)
    ensures HasRegisterFields(req.body) && !IsValidPlatoon(Field(req.body, "platoon").s) ==>
              o == Outcome(Response(400, ErrorMessage("Invalid platoon type")), s)
    ensures HasRegisterFields(req.body) && IsValidPlatoon(Field(req.body, "platoon").s)
            && GetUserByUsername(s, Field(req.body, "username").s).Some? ==>
              o == Outcome(Response(409, ErrorMessage("Username already exists")), s)
    ensures o.response.status == 200 <==>
              && HasRegisterFields(req.body) && IsValidPlatoon(Field(req.body, "platoon").s)
              && GetUserByUsername(s, Field(req.body, "username").s).None?
    ensures o.response.status != 200 ==> o.store == s
    ensures o.response.status == 200 ==>
              var u := NewUser(req.body, env, crypto);
              && GetUserByUsername(o.store, u.username) == Some(u)
              && (forall n :: n != u.username ==> GetUserByUsername(o.store, n) == GetUserByUsername(s, n))
              && o.response.body == Authenticated(crypto.sign(ClaimsOf(u)), PublicUser(u.username, u.platoon))
    ensures o.store.missions == s.missions && o.store.order == s.order
    ensures Valid(s) ==> Valid(o.store)
  {
    var body := req.body;
    if !HasRegisterFields(body) then
      Outcome(Response(400, ErrorMessage("Missing required fields")), s)
    else if !IsValidPlatoon(Field(body, "platoon").s) then
      Outcome(Response(400, ErrorMessage("Invalid platoon type")), s)
    else if GetUserByUsername(s, Field(body, "username").s).Some? then
      Outcome(Response(409, ErrorMessage("Username already exists")), s)
    else
      var u := NewUser(body, env, crypto);
      var token := crypto.sign(ClaimsOf(u));
      Outcome(Response(200, Authenticated(token, PublicUser(u.username, u.platoon))), SaveUser(s, u))
  }

  /**
   * `loginUser`: 400 when username or password is missing, decided before
   * any lookup; one "Invalid credentials" 401 for an unknown user and for a
   * wrong password alike; otherwise a token for the stored user's claims and
   * its username and platoon. The store never changes.
   */
  function LoginUser(req: Request, crypto: Crypto, s: Store): (o: Outcome)
    ensures o.store == s
    ensures !(Truthy(Field(req.body, "username")) && Truthy(Field(req.body, "password"))) ==>
              o.response == Response(400, ErrorMessage("Username and password required"))
    ensures o.response.status == 401 <==>
              && Truthy(Field(req.body, "username")) && Truthy(Field(req.body, "password"))
              && (|| GetUserByUsername(s, Field(req.body, "username").s).None?
                  || !crypto.compare(Field(req.body, "password").s,
                                     GetUserByUsername(s, Field(req.body, "username").s).value.password))
    ensures o.response.status == 401 ==> o.response == InvalidCredentials
    ensures o.response.status == 400 <==>
              !(Truthy(Field(req.body, "username")) && Truthy(Field(req.body, "password")))
    ensures o.response.status == 200 <==>
              && Truthy(Field(req.body, "username")) && Truthy(Field(req.body, "password"))
              && GetUserByUsername(s, Field(req.body, "username").s).Some?
              && crypto.compare(Field(req.body, "password").s,
                                GetUserByUsername(s, Field(req.body, "username").s).value.password)
    ensures o.response.status == 200 ==>
              && GetUserByUsername(s, Field(req.body, "username").s).Some?
              && var u := GetUserByUsername(s, Field(req.body, "username").s).value;
              o.response.body == Authenticated(crypto.sign(ClaimsOf(u)), PublicUser(u.username, u.platoon))
    ensures o.response.status in {200, 400, 401}
  {
    var username := Field(req.body, "username");
    var password := Field(req.body, "password");
    if !Truthy(username) || !Truthy(password) then
      Outcome(Response(400, ErrorMessage("Username and password required")), s)
    else
      match GetUserByUsername(s, username.s)
      case None => Outcome(InvalidCredentials, s)
      case Some(u) =>
        if !crypto.compare(password.s, u.password) then Outcome(InvalidCredentials, s)
        else
          var token := crypto.sign(ClaimsOf(u));
          Outcome(Response(200, Authenticated(token, PublicUser(u.username, u.platoon))), s)
  }

  /**
   * `verifyToken`: 401 without a token and 401 for a token the signer
   * rejects; otherwise the decoded claims.
   */
  function VerifyToken(req: Request, crypto: Crypto): (r: Response)
    ensures !HasToken(req.headers) ==> r == Response(401, ErrorMessage("No token provided"))
    ensures HasToken(req.headers) && crypto.verify(BearerToken(req.headers).s).None? ==>
              r == Response(401, ErrorMessage("Invalid token"))
    ensures r.status == 200 <==> HasToken(req.headers) && crypto.verify(BearerToken(req.headers).s).Some?
    ensures r.status == 200 ==> r.body == TokenValid(crypto.verify(BearerToken(req.headers).s).value)
    ensures r.status in {200, 401}
  {
    var token := BearerToken(req.headers);
    if !Truthy(token) then Response(401, ErrorMessage("No token provided"))
    else match crypto.verify(token.s)
      case None => Response(401, ErrorMessage("Invalid token"))
      case Some(claims) => Response(200, TokenValid(claims))
  }

  /** The requests `handleAuth` passes to a handler. */
  predicate AuthRouted(req: Request) {
    req.verb == "POST" && req.path in {"/register", "/login", "/verify"}
  }

  /**
   * `handleAuth`: each of the three POST routes reaches its own handler,
   * and anything else gets 404.
   */
  function HandleAuth(req: Request, env: Env, crypto: Crypto, s: Store): (o: Outcome)
    ensures o.response.status == 404 <==> !AuthRouted(req)
    ensures !AuthRouted(req) ==> o == Outcome(Response(404, ErrorMessage("Not Found")), s)
    ensures o.store.missions == s.missions && o.store.order == s.order
    ensures req.path != "/register" ==> o.store == s
    ensures Valid(s) ==> Valid(o.store)
    ensures req.verb == "POST" && req.path == "/register" ==> o == RegisterUser(req, env, crypto, s)
    ensures req.verb == "POST" && req.path == "/login" ==> o == LoginUser(req, crypto, s)
    ensures req.verb == "POST" && req.path == "/verify" ==> o == Outcome(VerifyToken(req, crypto), s)
  {
    if req.verb == "POST" && req.path == "/register" then RegisterUser(req, env, crypto, s)
    else if req.verb == "POST" && req.path == "/login" then LoginUser(req, crypto, s)
    else if req.verb == "POST" && req.path == "/verify" then Outcome(VerifyToken(req, crypto), s)
    else Outcome(Response(404, ErrorMessage("Not Found")), s)
  }

  // ---------------------------------------------------------------- lemmas

  /**
   * An unknown username and a wrong password get the same answer, so the
   * response does not reveal which one failed.
   */
  lemma LoginFailuresIndistinguishable(unknown: Request, wrong: Request, crypto: Crypto, s: Store)
    requires Truthy(Field(unknown.body, "username")) && Truthy(Field(unknown.body, "password"))
    requires Truthy(Field(wrong.body, "username")) && Truthy(Field(wrong.body, "password"))
    requires GetUserByUsername(s, Field(unknown.body, "username").s).None?
    requires GetUserByUsername(s, Field(wrong.body, "username").s).Some?
    requires !crypto.compare(Field(wrong.body, "password").s,
                             GetUserByUsername(s, Field(wrong.body, "username").s).value.password)
    ensures LoginUser(unknown, crypto, s).response == LoginUser(wrong, crypto, s).response == InvalidCredentials
  {
  }

  /** A login missing a field is answered the same whatever the store holds. */
  lemma LoginMissingFieldIgnoresStore(req: Request, crypto: Crypto, s1: Store, s2: Store)
    requires !Truthy(Field(req.body, "username")) || !Truthy(Field(req.body, "password"))
    ensures LoginUser(req, crypto, s1).response == LoginUser(req, crypto, s2).response
  {
  }

  /** A second registration of a username is refused with 409, whatever its password or platoon. */
  lemma RegisterTwiceConflicts(first: Request, second: Request, env1: Env, env2: Env, crypto: Crypto, s: Store)
    requires RegisterUser(first, env1, crypto, s).response.status == 200
    requires HasRegisterFields(second.body) && IsValidPlatoon(Field(second.body, "platoon").s)
    requires Field(second.body, "username") == Field(first.body, "username")
    ensures var s1 := RegisterUser(first, env1, crypto, s).store;
            RegisterUser(second, env2, crypto, s1) == Outcome(Response(409, ErrorMessage("Username already exists")), s1)
  {
    var u := NewUser(first.body, env1, crypto);
    assert GetUserByUsername(RegisterUser(first, env1, crypto, s).store, u.username) == Some(u);
  }

  /**
   * Round trip: after a successful registration, logging in with the same
   * username and password succeeds and returns the registered username and
   * platoon, with a token signed for the new user's claims.
   */
  lemma RegisterThenLogin(reg: Request, login: Request, env: Env, crypto: Crypto, s: Store)
    requires HashSound(crypto)
    requires RegisterUser(reg, env, crypto, s).response.status == 200
    requires Field(login.body, "username") == Field(reg.body, "username")
    requires Field(login.body, "password") == Field(reg.body, "password")
    ensures var s1 := RegisterUser(reg, env, crypto, s).store;
            var o := LoginUser(login, crypto, s1);
            && o.response.status == 200
            && o.response.body.user == PublicUser(Field(reg.body, "username").s, Field(reg.body, "platoon").s)
            && o.response.body.token == crypto.sign(ClaimsOf(NewUser(reg.body, env, crypto)))
  {
    var u := NewUser(reg.body, env, crypto);
    var s1 := RegisterUser(reg, env, crypto, s).store;
    assert GetUserByUsername(s1, u.username) == Some(u);
    assert crypto.compare(Field(reg.body, "password").s, crypto.hash(Field(reg.body, "password").s, env.salt));
  }

  /**
   * A token handed out by register or login, sent back as a bearer header to
   * `/verify`, is accepted and decodes to the username and platoon the
   * answer reported.
   */
  lemma IssuedTokenVerifies(req: Request, env: Env, crypto: Crypto, s: Store, check: Request)
    requires SignSound(crypto)
    requires HandleAuth(req, env, crypto, s).response.body.Authenticated?
    requires check.verb == "POST" && check.path == "/verify"
    requires check.headers == BearerHeader(HandleAuth(req, env, crypto, s).response.body.token)
    ensures var issued := HandleAuth(req, env, crypto, s).response.body;
            var r := HandleAuth(check, env, crypto, s).response;
            && r.status == 200
            && r.body.claims.username == issued.user.username
            && r.body.claims.platoon == issued.user.platoon
  {
    var issued := HandleAuth(req, env, crypto, s).response.body;
    assert exists u :: issued.token == crypto.sign(ClaimsOf(u))
                       && issued.user == PublicUser(u.username, u.platoon);
    var u :| issued.token == crypto.sign(ClaimsOf(u)) && issued.user == PublicUser(u.username, u.platoon);
    BearerHeaderRoundTrip(issued.token);
  }
}

=== FILE: client.dfy ===
/**
 * The browser client's form checks: what `register`, `login` and
 * `createMission` do with the values of their input fields before any
 * request is sent. A form either raises an alert and sends nothing, or
 * posts the JSON body shown.
 */
module Client {
  import opened JsValue
  import opened JsString
  import Storage
  import Http
  import Auth
  import Missions

  /** The outcome of submitting a form. */
  datatype Submission = Alert(message: string) | Post(body: Record)

  /** `register()`: all three fields must be filled in. */
  function Register(username: string, password: string, platoon: string): (r: Submission)
    ensures r.Post? <==> username != "" && password != "" && platoon != ""
    ensures r.Alert? ==> r.message == "Please fill all fields"
    ensures r.Post? ==> r.body.Keys == {"username", "password", "platoon"}
                        && r.body["username"] == Str(username)
                        && r.body["password"] == Str(password)
                        && r.body["platoon"] == Str(platoon)
  {
    if username == "" || password == "" || platoon == "" then Alert("Please fill all fields")
    else Post(map["username" := Str(username), "password" := Str(password), "platoon" := Str(platoon)])
  }

  /** `login()`: both fields must be filled in. */
  function Login(username: string, password: string): (r: Submission)
    ensures r.Post? <==> username != "" && password != ""
    ensures r.Alert? ==> r.message == "Please fill all fields"
    ensures r.Post? ==> r.body.Keys == {"username", "password"}
                        && r.body["username"] == Str(username)
                        && r.body["password"] == Str(password)
  {
    if username == "" || password == "" then Alert("Please fill all fields")
    else Post(map["username" := Str(username), "password" := Str(password)])
  }

  /**
   * The outcome of the create-mission form: an alert, or the type the form
   * settled on (`finalType`) and the body it posts. The body carries the
   * selected type and the custom type as they are, not `finalType`.
   */
  datatype MissionSubmission =
    | MissionAlert(message: string)
    | MissionPost(finalType: string, body: Record)

  /**
   * `createMission()`: "Custom" needs a custom type that is not blank, and
   * the description must not be blank; the settled type is the custom type
   * exactly when "Custom" was selected.
   */
  function CreateMission(userPlatoon: string, missionType: string, customType: string,
                         description: string, date: string): (r: MissionSubmission)
    ensures missionType == "Custom" && Blank(customType) ==>
              r == MissionAlert("Please enter a custom mission type")
    ensures !(missionType == "Custom" && Blank(customType)) && Blank(description) ==>
              r == MissionAlert("Please enter a mission description")
    ensures r.MissionPost? <==> !(missionType == "Custom" && Blank(customType)) && !Blank(description)
    ensures r.MissionPost? && missionType == "Custom" ==> r.finalType == customType
    ensures r.MissionPost? && missionType != "Custom" ==> r.finalType == missionType
    ensures r.MissionPost? ==>
              && r.body.Keys == {"platoon", "missionType", "customType", "description", "date"}
              && r.body["platoon"] == Str(userPlatoon)
              && r.body["missionType"] == Str(missionType)
              && r.body["customType"] == Str(customType)
              && r.body["description"] == Str(description)
              && r.body["date"] == Str(date)
  {
    if missionType == "Custom" && Trim(customType) == "" then
      MissionAlert("Please enter a custom mission type")
    else if Trim(description) == "" then
      MissionAlert("Please enter a mission description")
    else
      var finalType := if missionType == "Custom" then customType else missionType;
      MissionPost(finalType, map[
        "platoon" := Str(userPlatoon),
        "missionType" := Str(missionType),
        "customType" := Str(customType),
        "description" := Str(description),
        "date" := Str(date)])
  }

  /** A registration the client sends always passes the server's missing-field check. */
  lemma ClientRegisterHasFields(username: string, password: string, platoon: string)
    requires Register(username, password, platoon).Post?
    ensures Auth.HasRegisterFields(Register(username, password, platoon).body)
  {
  }

  /** A login the client sends is never answered "Username and password required". */
  lemma ClientLoginHasFields(username: string, password: string, req: Http.Request, crypto: Http.Crypto, s: Storage.Store)
    requires Login(username, password).Post?
    requires req.body == Login(username, password).body
    ensures Auth.LoginUser(req, crypto, s).response.status != 400
  {
  }

  /**
   * The type the client settled on is the type the server stores: the
   * server's own "Custom" substitution on the body the client posts gives
   * back the client's `finalType`.
   */
  lemma ClientTypeIsStoredType(userPlatoon: string, missionType: string, customType: string,
                               description: string, date: string,
                               req: Http.Request, env: Http.Env, s: Storage.Store)
    requires CreateMission(userPlatoon, missionType, customType, description, date).MissionPost?
    requires req.body == CreateMission(userPlatoon, missionType, customType, description, date).body
    requires Missions.CreateMission(req, env, s).response.status == 200
    ensures var sub := CreateMission(userPlatoon, missionType, customType, description, date);
            Missions.CreateMission(req, env, s).store.missions[env.freshId]["missionType"] == Str(sub.finalType)
  {
  }
}

=== FILE: http.dfy ===
/**
 * The request/response surface the handlers see, and the collaborators they
 * call but that are not part of this model: the password hash (bcrypt), the
 * token signer (JSON Web Tokens) and the clock.
 */
module Http {
  import opened Maybe
  import opened JsValue
  import opened JsString
  import Storage

  /** The claims a session token carries. */
  datatype Claims = Claims(id: string, username: string, platoon: string)

  /** The redacted user view returned by register and login. */
  datatype PublicUser = PublicUser(username: string, platoon: string)

  /** The JSON bodies the handlers answer with. */
  datatype Body =
    | ErrorMessage(error: string)                   // { error }
    | MissionList(missions: seq<Record>)            // { missions }
    | MissionSaved(mission: Record)                 // { success: true, mission }
    | Deleted                                       // { success: true }
    | Authenticated(token: string, user: PublicUser) // { success: true, token, user }
    | TokenValid(claims: Claims)                    // { valid: true, user }

  datatype Response = Response(status: int, body: Body)

  /**
   * A request as the handlers read it: `req.method` (here `verb`), the path below the mount point,
   * and the `headers`, `query`, `body` and `params.id` values.
   */
  datatype Request = Request(
    verb: string, path: string,
    headers: Record, query: Record, body: Record, paramsId: Value)

  /** What a handler answers and the store it leaves behind. */
  datatype Outcome = Outcome(response: Response, store: Storage.Store)

  /**
   * The clock and randomness a request consumes: `Date.now().toString()`
   * (used as the new record's id), `new Date().toISOString()` and the
   * password-hash salt.
   */
  datatype Env = Env(freshId: string, now: string, salt: string)

  /**
   * The cryptographic collaborators: bcrypt's `hash(password, salt)` and
   * `compare(password, hash)`, and the token signer's `sign(claims)` and
   * `verify(token)`. The signer here does not read the clock, so the
   * issue time and the 7-day expiry a real token carries are not modelled.
   */
  datatype Crypto = Crypto(
    hash: (string, string) -> string,
    compare: (string, string) -> bool,
    sign: Claims -> string,
    verify: string -> Option<Claims>)

  /** What the program relies on from bcrypt: a password matches its own hash. */
  ghost predicate HashSound(c: Crypto) {
    forall p, salt :: c.compare(p, c.hash(p, salt))
  }

  /**
   * What the program relies on from the signer: a token is never empty and
   * verifies to the claims it was signed with.
   */
  ghost predicate SignSound(c: Crypto) {
    forall cl :: c.sign(cl) != "" && c.verify(c.sign(cl)) == Some(cl)
  }

  /** `req.headers.authorization?.replace('Bearer ', '')`. */
  function BearerToken(headers: Record): Value {
    match Field(headers, "authorization")
    case Undefined => Undefined
    case Str(h) => Str(ReplaceFirst(h, "Bearer ", ""))
  }

  /** The handlers' only check on the caller: some token text is present. */
  predicate HasToken(headers: Record) {
    Truthy(BearerToken(headers))
  }

  /** The header a client sends with a token. */
  function BearerHeader(token: string): Record {
    map["authorization" := Str("Bearer " + token)]
  }

  /** A header built from a token carries exactly that token back. */
  lemma BearerHeaderRoundTrip(token: string)
    ensures BearerToken(BearerHeader(token)) == Str(token)
    ensures HasToken(BearerHeader(token)) <==> token != ""
  {
    ReplaceAtFront("Bearer ", token, "");
  }

  /** Without an `authorization` header, or with one that is just the prefix, there is no token. */
  lemma NoTokenCases(headers: Record)
    ensures "authorization" !in headers ==> !HasToken(headers)
    ensures Field(headers, "authorization") == Str("Bearer ") ==> !HasToken(headers)
  {
    ReplaceAtFront("Bearer ", "", "");
    assert "Bearer " + "" == "Bearer ";
  }
}

=== FILE: js_string.dfy ===
/**
 * The pieces of JavaScript's String.prototype that the planner relies on:
 * `indexOf`, `includes`, `replace` with a string pattern (first occurrence
 * only), `startsWith`, `split('/')` and `trim`.
 */
module JsString {
  import opened Maybe

  /** `pat` occurs in `s` starting at index `i`. */
  predicate OccursAt(s: string, pat: string, i: nat) {
    i + |pat| <= |s| && s[i..i + |pat|] == pat
  }

  /** `i` is the index of the first occurrence of `pat` in `s`. */
  predicate IsFirstOccurrence(s: string, pat: string, i: nat) {
    OccursAt(s, pat, i) && forall j: nat :: j < i ==> !OccursAt(s, pat, j)
  }

  /** `s.indexOf(pat, from)`: the first occurrence of `pat` at or after `from`. */
  function IndexOf(s: string, pat: string, from: nat): (r: Option<nat>)
    decreases |s| - from
    ensures r.Some? ==> from <= r.value && OccursAt(s, pat, r.value)
    ensures r.Some? ==> forall j: nat :: from <= j < r.value ==> !OccursAt(s, pat, j)
    ensures r.None? ==> forall j: nat :: from <= j ==> !OccursAt(s, pat, j)
  {
    if OccursAt(s, pat, from) then Some(from)
    else if from + |pat| >= |s| then None
    else IndexOf(s, pat, from + 1)
  }

  /** `s.includes(pat)`. */
  predicate Includes(s: string, pat: string) {
    IndexOf(s, pat, 0).Some?
  }

  lemma IncludesMeansOccurs(s: string, pat: string)
    ensures Includes(s, pat) <==> exists i: nat :: OccursAt(s, pat, i)
  {
    if !Includes(s, pat) {
      assert forall j: nat :: 0 <= j ==> !OccursAt(s, pat, j);
    }
  }

  /**
   * `s.replace(pat, rep)` with a string pattern: only the first occurrence
   * is replaced, and `s` is returned unchanged when `pat` does not occur.
   * (The replacement strings used by the program contain no `$` patterns.)
   */
  function ReplaceFirst(s: string, pat: string, rep: string): (r: string)
    ensures forall i: nat :: IsFirstOccurrence(s, pat, i) ==> r == s[..i] + rep + s[i + |pat|..]
    ensures (forall i: nat :: !OccursAt(s, pat, i)) ==> r == s
    ensures Includes(s, pat) ==> |r| == |s| - |pat| + |rep|
  {
    match IndexOf(s, pat, 0)
    case None => s
    case Some(i) =>
      assert forall k: nat :: IsFirstOccurrence(s, pat, k) ==> k == i;
      s[..i] + rep + s[i + |pat|..]
  }

  /** Replacing a pattern that sits at the very front. */
  lemma ReplaceAtFront(pat: string, rest: string, rep: string)
    ensures ReplaceFirst(pat + rest, pat, rep) == rep + rest
  {
    var s := pat + rest;
    assert s[0..|pat|] == pat;
    assert IsFirstOccurrence(s, pat, 0);
    assert s[..0] == [];
    assert s[|pat|..] == rest;
  }

  /** `s.startsWith(prefix)`. */
  predicate StartsWith(s: string, prefix: string) {
    |prefix| <= |s| && s[..|prefix|] == prefix
  }

  /**
   * `s.split('/')[1]`: the text between the first and the second `/`
   * (or the end of `s`); `undefined` (here `None`) when `s` has no `/`.
   */
  function SecondSlashField(s: string): (r: Option<string>)
    ensures r.None? <==> '/' !in s
    ensures r.Some? ==> '/' !in r.value
    ensures r.Some? ==> exists i: nat :: i < |s| && s[i] == '/' && '/' !in s[..i]
                                        && StartsWith(s[i + 1..], r.value)
                                        && (|s[i + 1..]| == |r.value| || s[i + 1 + |r.value|] == '/')
  {
    match IndexOf(s, "/", 0)
    case None =>
      assert forall j: nat :: j < |s| ==> s[j] != '/' by {
        forall j: nat | j < |s| ensures s[j] != '/' {
          assert !OccursAt(s, "/", j);
          assert s[j..j + 1] == [s[j]];
        }
      }
      None
    case Some(i) =>
      assert s[i..i + 1] == "/";
      assert s[i] == '/';
      assert '/' !in s[..i] by {
        forall j: nat | j < i ensures s[j] != '/' {
          assert !OccursAt(s, "/", j);
          assert s[j..j + 1] == [s[j]];
        }
      }
      var rest := s[i + 1..];
      var field := UpToSlash(rest);
      Some(field)
  }

  /** The longest prefix of `s` without a `/`. */
  function UpToSlash(s: string): (r: string)
    ensures StartsWith(s, r) && '/' !in r
    ensures |r| == |s| || s[|r|] == '/'
  {
    if s == [] || s[0] == '/' then []
    else
      var tail := UpToSlash(s[1..]);
      assert s == [s[0]] + s[1..];
      [s[0]] + tail
  }

  /**
   * The characters `String.prototype.trim` removes: ECMAScript WhiteSpace
   * (TAB, VT, FF, ZWNBSP and every space separator) and LineTerminator.
   */
  predicate IsWhitespace(c: char) {
    || c == '\U{0009}' || c == '\U{000B}' || c == '\U{000C}' || c == ' '
    || c == '\U{00A0}' || c == '\U{FEFF}' || c == '\U{1680}'
    || ('\U{2000}' <= c <= '\U{200A}')
    || c == '\U{202F}' || c == '\U{205F}' || c == '\U{3000}'
    || c == '\U{000A}' || c == '\U{000D}' || c == '\U{2028}' || c == '\U{2029}'
  }

  /** Every character of `s` is white space (the empty string included). */
  predicate Blank(s: string) {
    forall i :: 0 <= i < |s| ==> IsWhitespace(s[i])
  }

  /** The number of white-space characters at the front of `s`. */
  function LeadingBlank(s: string): (k: nat)
    ensures k <= |s| && Blank(s[..k])
    ensures k < |s| ==> !IsWhitespace(s[k])
  {
    if s != [] && IsWhitespace(s[0]) then
      var k := LeadingBlank(s[1..]);
      assert s[..k + 1] == [s[0]] + s[1..][..k];
      k + 1
    else 0
  }

  /** Where the white space at the end of `s` begins. */
  function TrailingBlank(s: string): (k: nat)
    ensures k <= |s| && Blank(s[k..])
    ensures 0 < k ==> !IsWhitespace(s[k - 1])
  {
    if s != [] && IsWhitespace(s[|s| - 1]) then
      var k := TrailingBlank(s[..|s| - 1]);
      assert s[k..] == s[..|s| - 1][k..] + [s[|s| - 1]];
      k
    else |s|
  }

  lemma BlankConcat(x: string, y: string)
    requires Blank(x) && Blank(y)
    ensures Blank(x + y)
  {
    forall i | 0 <= i < |x + y| ensures IsWhitespace((x + y)[i]) {
      if i < |x| { assert (x + y)[i] == x[i]; } else { assert (x + y)[i] == y[i - |x|]; }
    }
  }

  /**
   * `s.trim()`: what is left after dropping the white space at both ends;
   * it is empty exactly when `s` is blank.
   */
  function Trim(s: string): (r: string)
    ensures r == [] <==> Blank(s)
    ensures r != [] ==> !IsWhitespace(r[0]) && !IsWhitespace(r[|r| - 1])
    ensures |r| <= |s|
  {
    var a := LeadingBlank(s);
    var b := TrailingBlank(s[a..]);
    TrimFacts(s, a, b);
    s[a..a + b]
  }

  lemma TrimFacts(s: string, a: nat, b: nat)
    requires a == LeadingBlank(s) && b == TrailingBlank(s[a..])
    ensures a + b <= |s|
    ensures s[a..a + b] == [] <==> Blank(s)
    ensures s[a..a + b] != [] ==> !IsWhitespace(s[a]) && !IsWhitespace(s[a + b - 1])
    ensures Blank(s[..a]) && Blank(s[a + b..])
  {
    var t := s[a..];
    assert s[a + b..] == t[b..];
    if b == 0 {
      assert t == t[b..];
      assert s == s[..a] + t;
      BlankConcat(s[..a], t);
    } else {
      assert s[a + b - 1] == t[b - 1];
      assert !IsWhitespace(s[a]);
    }
  }

  /** The trimmed string is a slice of `s` with only white space around it. */
  lemma TrimIsInfix(s: string)
    ensures var r := Trim(s);
            exists a :: 0 <= a <= |s| - |r| && r == s[a..a + |r|] && Blank(s[..a]) && Blank(s[a + |r|..])
  {
    var a := LeadingBlank(s);
    var b := TrailingBlank(s[a..]);
    TrimFacts(s, a, b);
    assert Trim(s) == s[a..a + b];
  }
}

=== FILE: js_value.dfy ===
/**
 * The JavaScript values the planner passes around: request bodies, query
 * strings, headers and stored missions are plain objects whose properties
 * hold strings or are absent (`undefined`).
 */
module JsValue {
  /** A property value: `undefined` or a string. */
  datatype Value = Undefined | Str(s: string)

  /** A plain object: its own properties and their values. */
  type Record = map<string, Value>

  /** `obj[k]` on an object without inherited properties. */
  function Field(r: Record, k: string): Value {
    if k in r then r[k] else Undefined
  }

  /** JavaScript truthiness; `!v` is its negation. */
  predicate Truthy(v: Value) {
    v.Str? && v.s != ""
  }

  /** `a || b`. */
  function Or(a: Value, b: Value): Value {
    if Truthy(a) then a else b
  }

  /** The property key a value becomes when used as `obj[v]`. */
  function PropertyKey(v: Value): string {
    match v
    case Undefined => "undefined"
    case Str(s) => s
  }
}

=== FILE: maybe.dfy ===
/** A small optional-value type, used wherever the program answers "nothing". */
module Maybe {
  datatype Option<+T> = None | Some(value: T)
}

=== FILE: missions.dfy ===
/**
 * The mission request handlers. Each one only checks that some bearer token
 * text is present; the token is never verified and the caller's platoon or
 * role is never consulted, so any caller with a token may list, create,
 * update or delete missions of any platoon.
 */
module Missions {
  import opened Maybe
  import opened JsValue
  import opened JsString
  import opened Platoon
  import opened Storage
  import opened Http

  /** The keys of a mission record as `createMission` builds it. */
  const MissionFields: set<string> := {"id", "platoon", "missionType", "description", "date", "createdAt"}

  /** The keys of the record `updateMissionHandler` merges into a mission. */
  const UpdateFields: set<string> := {"id", "platoon", "missionType", "description", "date"}

  const NoToken := Response(401, ErrorMessage("No token provided"))

  /** `missionType === 'Custom' ? customType : missionType`. */
  function ResolveMissionType(missionType: Value, customType: Value): Value {
    if missionType == Str("Custom") then customType else missionType
  }

  /** `req.params.id || req.path.split('/')[1]`. */
  function MissionIdOf(req: Request): Value {
    if Truthy(req.paramsId) then req.paramsId
    else match SecondSlashField(req.path)
      case None => Undefined
      case Some(f) => Str(f)
  }

  /** The store key a request's mission id addresses. */
  function TargetKey(req: Request): string {
    PropertyKey(MissionIdOf(req))
  }

  /**
   * `getMissions`: 401 without a token, 400 without a `platoon` query value,
   * otherwise the missions stored for exactly that platoon value. The store
   * never changes.
   */
  function GetMissions(req: Request, s: Store): (o: Outcome)
    requires Valid(s)
    ensures o.store == s
    ensures !HasToken(req.headers) ==> o.response == NoToken
    ensures HasToken(req.headers) && !Truthy(Field(req.query, "platoon")) ==>
              o.response == Response(400, ErrorMessage("Platoon required"))
    ensures o.response.status == 200 <==> HasToken(req.headers) && Truthy(Field(req.query, "platoon"))
    ensures o.response.status == 200 ==>
              && o.response.body == MissionList(GetMissionsByPlatoon(s, Field(req.query, "platoon")))
              && (forall m :: m in o.response.body.missions ==>
                    m in s.missions.Values && Field(m, "platoon") == Field(req.query, "platoon"))
              && (forall k :: k in s.missions && Field(s.missions[k], "platoon") == Field(req.query, "platoon") ==>
                    s.missions[k] in o.response.body.missions)
  {
    if !HasToken(req.headers) then Outcome(NoToken, s)
    else
      var platoon := Field(req.query, "platoon");
      if !Truthy(platoon) then Outcome(Response(400, ErrorMessage("Platoon required")), s)
      else Outcome(Response(200, MissionList(GetMissionsByPlatoon(s, platoon))), s)
  }

  /** The body fields `createMission` accepts: a platoon, a mission type and a listed platoon. */
  predicate CreateAccepted(body: Record) {
    && Truthy(Field(body, "platoon"))
    && Truthy(Field(body, "missionType"))
    && IsValidPlatoon(Field(body, "platoon").s)
  }

  /** The stored platoon is one of the three base colours. */
  predicate IsBasePlatoon(v: Value) {
    v.Str? && v.s in BasePlatoons
  }

  /**
   * The record `createMission` files: its platoon is the base colour with
   * `_Lieutenant` removed, its type is the custom type exactly when the type
   * is "Custom", its date is the one supplied or now, and it was created now.
   * Description and custom type are stored as sent, unchecked.
   */
  function NewMission(body: Record, env: Env): (m: Record)
    requires CreateAccepted(body)
    ensures m.Keys == MissionFields
    ensures MissionKey(m) == env.freshId && m["id"] == Str(env.freshId)
    ensures IsBasePlatoon(m["platoon"])
    ensures m["platoon"] == Str(PlatoonName(Field(body, "platoon").s))
    ensures Field(body, "missionType") == Str("Custom") ==> m["missionType"] == Field(body, "customType")
    ensures Field(body, "missionType") != Str("Custom") ==> m["missionType"] == Field(body, "missionType")
    ensures m["description"] == Field(body, "description")
    ensures Truthy(Field(body, "date")) ==> m["date"] == Field(body, "date")
    ensures !Truthy(Field(body, "date")) ==> m["date"] == Str(env.now)
    ensures m["createdAt"] == Str(env.now)
  {
    var platoon := Field(body, "platoon").s;
    PlatoonNameOfValid(platoon);
    map[
      "id" := Str(env.freshId),
      "platoon" := Str(PlatoonName(platoon)),
      "missionType" := ResolveMissionType(Field(body, "missionType"), Field(body, "customType")),
      "description" := Field(body, "description"),
      "date" := Or(Field(body, "date"), Str(env.now)),
      "createdAt" := Str(env.now)]
  }

  /**
   * `createMission`: 401 without a token; 400 without a platoon or mission
   * type, or with a platoon outside the six listed strings, and the store
   * does not change; otherwise the store gains exactly the new record under
   * the fresh id (replacing one already filed under it).
   */
  function CreateMission(req: Request, env: Env, s: Store): (o: Outcome)
    ensures !HasToken(req.headers) ==> o == Outcome(NoToken, s)
    ensures HasToken(req.headers) && !(Truthy(Field(req.body, "platoon")) && Truthy(Field(req.body, "missionType"))) ==>
              o == Outcome(Response(400, ErrorMessage("Platoon and mission type required")), s)
    ensures HasToken(req.headers) && Truthy(Field(req.body, "platoon")) && Truthy(Field(req.body, "missionType"))
            && !IsValidPlatoon(Field(req.body, "platoon").s) ==>
              o == Outcome(Response(400, ErrorMessage("Invalid platoon")), s)
    ensures o.response.status == 200 <==> HasToken(req.headers) && CreateAccepted(req.body)
    ensures o.response.status != 200 ==> o.store == s
    ensures o.response.status == 200 ==>
              && o.response.body == MissionSaved(NewMission(req.body, env))
              && o.store.missions == s.missions[env.freshId := NewMission(req.body, env)]
    ensures o.store.users == s.users
    ensures Valid(s) ==> Valid(o.store)
  {
    if !HasToken(req.headers) then Outcome(NoToken, s)
    else
      var platoon := Field(req.body, "platoon");
      var missionType := Field(req.body, "missionType");
      if !Truthy(platoon) || !Truthy(missionType) then
        Outcome(Response(400, ErrorMessage("Platoon and mission type required")), s)
      else if !IsValidPlatoon(platoon.s) then
        Outcome(Response(400, ErrorMessage("Invalid platoon")), s)
      else
        var mission := NewMission(req.body, env);
        Outcome(Response(200, MissionSaved(mission)), SaveMission(s, mission))
  }

  /**
   * The record `updateMissionHandler` merges: it always carries id, platoon
   * (with `_Lieutenant` removed, not checked against the six strings),
   * resolved type, description and date (or now), even when the request
   * left them out.
   */
  function UpdateRecord(req: Request, env: Env): (u: Record)
    requires Field(req.body, "platoon").Str?
    ensures u.Keys == UpdateFields
    ensures u["id"] == MissionIdOf(req) && MissionKey(u) == TargetKey(req)
    ensures u["platoon"] == Str(PlatoonName(Field(req.body, "platoon").s))
    ensures Field(req.body, "missionType") == Str("Custom") ==> u["missionType"] == Field(req.body, "customType")
    ensures Field(req.body, "missionType") != Str("Custom") ==> u["missionType"] == Field(req.body, "missionType")
    ensures u["description"] == Field(req.body, "description")
    ensures Truthy(Field(req.body, "date")) ==> u["date"] == Field(req.body, "date")
    ensures !Truthy(Field(req.body, "date")) ==> u["date"] == Str(env.now)
  {
    map[
      "id" := MissionIdOf(req),
      "platoon" := Str(PlatoonName(Field(req.body, "platoon").s)),
      "missionType" := ResolveMissionType(Field(req.body, "missionType"), Field(req.body, "customType")),
      "description" := Field(req.body, "description"),
      "date" := Or(Field(req.body, "date"), Str(env.now))]
  }

  /**
   * `updateMissionHandler`: 401 without a token; a request without a
   * platoon makes `platoon.replace` throw, answered 500; otherwise the update
   * record is merged into the mission under that id, if there is one, and
   * the answer is a success either way.
   */
  function UpdateMissionHandler(req: Request, env: Env, s: Store): (o: Outcome)
    ensures !HasToken(req.headers) ==> o == Outcome(NoToken, s)
    ensures HasToken(req.headers) && Field(req.body, "platoon") == Undefined ==>
              o == Outcome(Response(500, ErrorMessage("Failed to update mission")), s)
    ensures HasToken(req.headers) && Field(req.body, "platoon").Str? ==>
              && o.response == Response(200, MissionSaved(UpdateRecord(req, env)))
              && o.store == UpdateMission(s, UpdateRecord(req, env))
    ensures TargetKey(req) !in s.missions ==> o.store == s
    ensures o.store.users == s.users && o.store.missions.Keys == s.missions.Keys
    ensures Valid(s) ==> Valid(o.store)
  {
    if !HasToken(req.headers) then Outcome(NoToken, s)
    else if Field(req.body, "platoon").Undefined? then
      Outcome(Response(500, ErrorMessage("Failed to update mission")), s)
    else
      var updated := UpdateRecord(req, env);
      Outcome(Response(200, MissionSaved(updated)), UpdateMission(s, updated))
  }

  /**
   * `deleteMissionHandler`: 401 without a token; otherwise the mission under
   * the id is removed if there is one, and the answer is a success whether
   * or not it existed.
   */
  function DeleteMissionHandler(req: Request, s: Store): (o: Outcome)
    ensures !HasToken(req.headers) ==> o == Outcome(NoToken, s)
    ensures HasToken(req.headers) ==>
              && o.response == Response(200, Deleted)
              && o.store.missions.Keys == s.missions.Keys - {TargetKey(req)}
              && (forall k :: k in o.store.missions ==> o.store.missions[k] == s.missions[k])
    ensures o.store.users == s.users
    ensures Valid(s) ==> Valid(o.store)
  {
    if !HasToken(req.headers) then Outcome(NoToken, s)
    else Outcome(Response(200, Deleted), DeleteMission(s, TargetKey(req)))
  }

  /** The requests `handleMissions` passes to a handler. */
  predicate Routed(req: Request) {
    || (req.verb == "GET" && req.path == "/")
    || (req.verb == "POST" && req.path == "/")
    || (req.verb == "PUT" && StartsWith(req.path, "/"))
    || (req.verb == "DELETE" && StartsWith(req.path, "/"))
  }

  /**
   * `handleMissions`: dispatch on method and path, 404 for anything else.
   * (Every handler catches its own errors, so the dispatcher's own 500 answer
   * is never produced.)
   */
  function HandleMissions(req: Request, env: Env, s: Store): (o: Outcome)
    requires Valid(s)
    ensures o.response.status == 404 <==> !Routed(req)
    ensures !Routed(req) ==> o == Outcome(Response(404, ErrorMessage("Not Found")), s)
    ensures Routed(req) && !HasToken(req.headers) ==> o == Outcome(NoToken, s)
    ensures o.store.users == s.users
    ensures Valid(o.store)
    ensures req.verb == "GET" && req.path == "/" ==> o == GetMissions(req, s)
    ensures req.verb == "POST" && req.path == "/" ==> o == CreateMission(req, env, s)
    ensures req.verb == "PUT" && StartsWith(req.path, "/") ==> o == UpdateMissionHandler(req, env, s)
    ensures req.verb == "DELETE" && StartsWith(req.path, "/") ==> o == DeleteMissionHandler(req, s)
  {
    if req.verb == "GET" && req.path == "/" then GetMissions(req, s)
    else if req.verb == "POST" && req.path == "/" then CreateMission(req, env, s)
    else if req.verb == "PUT" && StartsWith(req.path, "/") then UpdateMissionHandler(req, env, s)
    else if req.verb == "DELETE" && StartsWith(req.path, "/") then DeleteMissionHandler(req, s)
    else Outcome(Response(404, ErrorMessage("Not Found")), s)
  }

  // ------------------------------------------------------------ invariants

  /** Every stored mission has the six keys a created mission has. */
  predicate MissionShaped(s: Store) {
    forall k :: k in s.missions ==> s.missions[k].Keys == MissionFields
  }

  /** Every stored mission's platoon is a base colour. */
  predicate BasePlatoonsOnly(s: Store) {
    forall k :: k in s.missions ==> IsBasePlatoon(Field(s.missions[k], "platoon"))
  }

  /** An update merges five of the six keys, so the six-key shape survives it. */
  lemma UpdateKeepsShape(req: Request, env: Env, s: Store)
    requires MissionShaped(s)
    ensures MissionShaped(UpdateMissionHandler(req, env, s).store)
  {
    var o := UpdateMissionHandler(req, env, s);
    if HasToken(req.headers) && Field(req.body, "platoon").Str? && TargetKey(req) in s.missions {
      assert o.store.missions[TargetKey(req)].Keys == MissionFields;
    }
  }

  /** Every request through `handleMissions` keeps stored missions in the six-key shape. */
  lemma HandleMissionsKeepsShape(req: Request, env: Env, s: Store)
    requires Valid(s) && MissionShaped(s)
    ensures MissionShaped(HandleMissions(req, env, s).store)
  {
    if req.verb == "PUT" && StartsWith(req.path, "/") {
      UpdateKeepsShape(req, env, s);
    }
  }

  /** Creating and deleting keep every stored platoon a base colour. */
  lemma CreateDeleteKeepBasePlatoons(req: Request, env: Env, s: Store)
    requires BasePlatoonsOnly(s)
    ensures BasePlatoonsOnly(CreateMission(req, env, s).store)
    ensures BasePlatoonsOnly(DeleteMissionHandler(req, s).store)
  {
    var o := CreateMission(req, env, s);
    if o.response.status == 200 {
      forall k | k in o.store.missions ensures IsBasePlatoon(Field(o.store.missions[k], "platoon")) {
        if k != env.freshId {
          assert o.store.missions[k] == s.missions[k];
        }
      }
    }
  }

  /**
   * Updating does not: the platoon of an update is not checked against the
   * six strings, so any string without `_Lieutenant` (such as "Purple")
   * becomes the stored platoon of an existing mission.
   */
  lemma UpdateCanLeaveBasePlatoons(req: Request, env: Env, s: Store)
    requires HasToken(req.headers) && Field(req.body, "platoon").Str?
    requires TargetKey(req) in s.missions
    requires !IsBasePlatoon(Str(PlatoonName(Field(req.body, "platoon").s)))
    ensures var o := UpdateMissionHandler(req, env, s);
            && Field(o.store.missions[TargetKey(req)], "platoon") == Str(PlatoonName(Field(req.body, "platoon").s))
            && !BasePlatoonsOnly(o.store)
  {
    var o := UpdateMissionHandler(req, env, s);
    var u := UpdateRecord(req, env);
    assert o.store.missions[TargetKey(req)]["platoon"] == u["platoon"];
  }

  /** "Purple" is such a platoon: not one of the six, and its own base name. */
  lemma PurpleIsNoPlatoon()
    ensures !IsValidPlatoon("Purple") && !IsBasePlatoon(Str(PlatoonName("Purple")))
  {
    NoUnderscoreUnchanged("Purple", "");
  }

  /**
   * The merge keeps only `createdAt` of a six-key mission: the update record
   * carries every other key, even those the request left out.
   */
  lemma UpdateKeepsOnlyCreatedAt(req: Request, env: Env, s: Store)
    requires HasToken(req.headers) && Field(req.body, "platoon").Str?
    requires TargetKey(req) in s.missions && s.missions[TargetKey(req)].Keys == MissionFields
    ensures var o := UpdateMissionHandler(req, env, s);
            o.store.missions[TargetKey(req)]
              == o.response.body.mission["createdAt" := s.missions[TargetKey(req)]["createdAt"]]
  {
    var o := UpdateMissionHandler(req, env, s);
    var u := o.response.body.mission;
    var old_ := s.missions[TargetKey(req)];
    assert MissionKey(u) == TargetKey(req);
    assert o.store.missions[TargetKey(req)] == old_ + u;
  }

  /**
   * A mission created for a lieutenant or base platoon string is listed,
   * after every mission listed before, to whoever asks for that base colour.
   */
  lemma CreatedMissionIsListed(create: Request, list: Request, env: Env, s: Store)
    requires Valid(s) && env.freshId !in s.missions
    requires CreateMission(create, env, s).response.status == 200
    requires HasToken(list.headers)
    requires Field(list.query, "platoon") == Str(PlatoonName(Field(create.body, "platoon").s))
    ensures var c := CreateMission(create, env, s);
            GetMissions(list, c.store).response.body
              == MissionList(GetMissionsByPlatoon(s, Field(list.query, "platoon")) + [c.response.body.mission])
  {
    var c := CreateMission(create, env, s);
    var m := c.response.body.mission;
    assert MissionKey(m) == env.freshId;
    assert c.store == SaveMission(s, m);
    SaveNewMissionListing(s, m, Field(list.query, "platoon"));
  }

  /** Deleting the same id twice answers success both times and leaves the store of one delete. */
  lemma DeleteTwice(req: Request, s: Store)
    requires HasToken(req.headers)
    ensures var once := DeleteMissionHandler(req, s);
            var twice := DeleteMissionHandler(req, once.store);
            twice.response == once.response == Response(200, Deleted) && twice.store == once.store
  {
    DeleteIdempotent(s, TargetKey(req));
  }
}

=== FILE: platoon.dfy ===
/**
 * Platoon strings. A user's platoon is one of six strings: a base colour
 * (Red, Green, Blue) optionally followed by `_Lieutenant`, which marks the
 * user as that platoon's lieutenant. Server and client both derive the base
 * colour and the role from the string with first-occurrence `replace` and
 * `includes`.
 */
module Platoon {
  import opened JsString

  const LieutenantSuffix := "_Lieutenant"

  /** The six platoon strings the server accepts, in the order it lists them. */
  const ValidPlatoons: seq<string> :=
    ["Red", "Green", "Blue", "Red_Lieutenant", "Green_Lieutenant", "Blue_Lieutenant"]

  const BasePlatoons: set<string> := {"Red", "Green", "Blue"}

  /** `validPlatoons.includes(platoon)`. */
  predicate IsValidPlatoon(p: string) {
    p in ValidPlatoons
  }

  /** `platoon.replace('_Lieutenant', '')`: the platoon's base colour name. */
  function PlatoonName(p: string): string {
    ReplaceFirst(p, LieutenantSuffix, "")
  }

  /** `platoon.replace('_Lieutenant', ' (Lieutenant)')`: the display form. */
  function FormatPlatoon(p: string): string {
    ReplaceFirst(p, LieutenantSuffix, " (Lieutenant)")
  }

  /** `platoon.includes('_Lieutenant')`: the client's lieutenant role test. */
  predicate IsLieutenant(p: string) {
    Includes(p, LieutenantSuffix)
  }

  /** The display colour of a platoon, chosen by its base colour name. */
  function PlatoonColor(p: string): string {
    var base := PlatoonName(p);
    if base == "Red" then "#ff0055"
    else if base == "Green" then "#00ff41"
    else if base == "Blue" then "#0066ff"
    else "#ffffff"
  }

  lemma OccurrenceStartsWithUnderscore(s: string, j: nat)
    ensures OccursAt(s, LieutenantSuffix, j) ==> j < |s| && s[j] == '_'
  {
    if OccursAt(s, LieutenantSuffix, j) {
      assert s[j] == s[j..j + |LieutenantSuffix|][0];
    }
  }

  /** In `b + "_Lieutenant"` with no `_` in `b`, the suffix is the first occurrence. */
  lemma SuffixIsFirstOccurrence(b: string)
    requires '_' !in b
    ensures IsFirstOccurrence(b + LieutenantSuffix, LieutenantSuffix, |b|)
  {
    var s := b + LieutenantSuffix;
    assert s[|b|..|b| + |LieutenantSuffix|] == LieutenantSuffix;
    forall j: nat | j < |b| ensures !OccursAt(s, LieutenantSuffix, j) {
      OccurrenceStartsWithUnderscore(s, j);
      assert s[j] == b[j];
    }
  }

  /** Replacing the suffix of `b + "_Lieutenant"` keeps `b` and appends the replacement. */
  lemma ReplaceSuffix(b: string, rep: string)
    requires '_' !in b
    ensures Includes(b + LieutenantSuffix, LieutenantSuffix)
    ensures ReplaceFirst(b + LieutenantSuffix, LieutenantSuffix, rep) == b + rep
  {
    var s := b + LieutenantSuffix;
    SuffixIsFirstOccurrence(b);
    IncludesMeansOccurs(s, LieutenantSuffix);
    assert s[..|b|] == b;
    assert s[|b| + |LieutenantSuffix|..] == [];
  }

  /** A string without `_` holds no `_Lieutenant`, so replacing it changes nothing. */
  lemma NoUnderscoreUnchanged(b: string, rep: string)
    requires '_' !in b
    ensures !Includes(b, LieutenantSuffix)
    ensures ReplaceFirst(b, LieutenantSuffix, rep) == b
  {
    forall j: nat ensures !OccursAt(b, LieutenantSuffix, j) {
      OccurrenceStartsWithUnderscore(b, j);
    }
    IncludesMeansOccurs(b, LieutenantSuffix);
  }

  /** A base colour is its own name and its own display form, and no lieutenant. */
  lemma BaseFacts(b: string)
    requires b in BasePlatoons
    ensures '_' !in b
    ensures PlatoonName(b) == b && FormatPlatoon(b) == b && !IsLieutenant(b)
  {
    assert '_' !in b;
    NoUnderscoreUnchanged(b, "");
    NoUnderscoreUnchanged(b, " (Lieutenant)");
  }

  /** `b_Lieutenant` names `b`, displays as `b (Lieutenant)` and is a lieutenant. */
  lemma LieutenantFacts(b: string)
    requires b in BasePlatoons
    ensures var p := b + LieutenantSuffix;
            PlatoonName(p) == b && FormatPlatoon(p) == b + " (Lieutenant)" && IsLieutenant(p)
  {
    BaseFacts(b);
    ReplaceSuffix(b, "");
    ReplaceSuffix(b, " (Lieutenant)");
    assert b + "" == b;
  }

  /** The base colour of an accepted lieutenant platoon string. */
  function LieutenantBase(p: string): (b: string)
    requires IsValidPlatoon(p) && p !in BasePlatoons
    ensures b in BasePlatoons && p == b + LieutenantSuffix
  {
    if p == "Red_Lieutenant" then "Red" else if p == "Green_Lieutenant" then "Green" else "Blue"
  }

  /**
   * The base colour name of each accepted platoon string is Red, Green or
   * Blue; it is the string itself for a base platoon, and the string without
   * its `_Lieutenant` suffix for a lieutenant one.
   */
  lemma PlatoonNameOfValid(p: string)
    requires IsValidPlatoon(p)
    ensures PlatoonName(p) in BasePlatoons
    ensures p in BasePlatoons ==> PlatoonName(p) == p
    ensures p !in BasePlatoons ==> p == PlatoonName(p) + LieutenantSuffix
    ensures IsLieutenant(p) <==> p !in BasePlatoons
  {
    if p in BasePlatoons {
      BaseFacts(p);
    } else {
      LieutenantFacts(LieutenantBase(p));
    }
  }

  /**
   * `formatPlatoon` turns `X_Lieutenant` into `X (Lieutenant)` and leaves a
   * base platoon unchanged.
   */
  lemma FormatPlatoonOfValid(p: string)
    requires IsValidPlatoon(p)
    ensures p in BasePlatoons ==> FormatPlatoon(p) == p
    ensures p !in BasePlatoons ==> FormatPlatoon(p) == PlatoonName(p) + " (Lieutenant)"
  {
    if p in BasePlatoons {
      BaseFacts(p);
    } else {
      LieutenantFacts(LieutenantBase(p));
    }
  }

  /**
   * The role test and the base name agree: a lieutenant string loses exactly
   * the eleven characters of `_Lieutenant`, any other string is its own name.
   */
  lemma LieutenantRoleAndName(p: string)
    ensures IsLieutenant(p) ==> |PlatoonName(p)| == |p| - |LieutenantSuffix|
    ensures !IsLieutenant(p) ==> PlatoonName(p) == p
    ensures IsLieutenant(p) <==> exists i: nat :: OccursAt(p, LieutenantSuffix, i)
  {
    IncludesMeansOccurs(p, LieutenantSuffix);
  }

  /** A lieutenant variant is drawn in the colour of its base platoon. */
  lemma LieutenantColorMatchesBase(b: string)
    requires '_' !in b
    ensures PlatoonColor(b + LieutenantSuffix) == PlatoonColor(b)
  {
    ReplaceSuffix(b, "");
    NoUnderscoreUnchanged(b, "");
  }

  /**
   * A colour other than white is given exactly to strings whose base name is
   * Red, Green or Blue; every accepted platoon string gets one.
   */
  lemma PlatoonColorIsWhiteUnlessBase(p: string)
    ensures PlatoonColor(p) != "#ffffff" <==> PlatoonName(p) in BasePlatoons
    ensures IsValidPlatoon(p) ==> PlatoonColor(p) != "#ffffff"
  {
    if IsValidPlatoon(p) {
      PlatoonNameOfValid(p);
    }
  }

  /**
   * The colour depends on the base name only, not on where `_Lieutenant`
   * sits: a string that is not one of the six can still get a platoon colour.
   */
  lemma ColorOfMisplacedSuffix()
    ensures !IsValidPlatoon("_LieutenantRed")
    ensures PlatoonColor("_LieutenantRed") == "#ff0055"
  {
    ReplaceAtFront(LieutenantSuffix, "Red", "");
    assert LieutenantSuffix + "Red" == "_LieutenantRed";
  }
}

=== FILE: storage.dfy ===
/**
 * The in-memory store: users keyed by username and missions keyed by id.
 * The missions object is enumerated (`Object.values`) in insertion order, so
 * the store also keeps the mission keys in the order they were first added.
 */
module Storage {
  import opened Maybe
  import opened JsValue

  /** A registered user; `password` holds the password hash. */
  datatype User = User(id: string, username: string, password: string, platoon: string, createdAt: string)

  /**
   * `users` maps a username to its record; `missions` maps a mission id to
   * its record; `order` lists the mission ids in insertion order.
   */
  datatype Store = Store(users: map<string, User>, missions: map<string, Record>, order: seq<string>)

  /** The store at start-up: `{ users: {}, missions: {} }`. */
  const Empty := Store(map[], map[], [])

  predicate NoDuplicates(xs: seq<string>) {
    forall i, j :: 0 <= i < j < |xs| ==> xs[i] != xs[j]
  }

  /**
   * Every reachable store: each user is filed under its own username, and
   * `order` lists each mission id exactly once.
   */
  predicate Valid(s: Store) {
    && (forall n :: n in s.users ==> s.users[n].username == n)
    && NoDuplicates(s.order)
    && (forall k :: k in s.missions ==> k in s.order)
    && (forall k :: k in s.order ==> k in s.missions)
  }

  lemma EmptyIsValid()
    ensures Valid(Empty)
  {
  }

  // ---------------------------------------------------------------- users

  /** `saveUser(user)`: files the user under its username, replacing any earlier one. */
  function SaveUser(s: Store, u: User): (r: Store)
    ensures GetUserByUsername(r, u.username) == Some(u)
    ensures forall n :: n != u.username ==> GetUserByUsername(r, n) == GetUserByUsername(s, n)
    ensures r.missions == s.missions && r.order == s.order
    ensures Valid(s) ==> Valid(r)
  {
    s.(users := s.users[u.username := u])
  }

  /** `getUserByUsername(username)`: the user filed under that name, or null. */
  function GetUserByUsername(s: Store, name: string): Option<User> {
    if name in s.users then Some(s.users[name]) else None
  }

  /** The user a valid store files under `name` carries that username. */
  lemma FoundUserHasName(s: Store, name: string)
    requires Valid(s)
    ensures GetUserByUsername(s, name).Some? ==> GetUserByUsername(s, name).value.username == name
  {
  }

  /** Saving several users one after another, first to last. */
  function SaveUsers(s: Store, us: seq<User>): Store
    decreases |us|
  {
    if us == [] then s else SaveUser(SaveUsers(s, us[..|us| - 1]), us[|us| - 1])
  }

  /** The last user in `us` with username `name`, if any. */
  function LastNamed(us: seq<User>, name: string): (r: Option<User>)
    ensures r.Some? ==> r.value.username == name
    ensures r.Some? ==> exists i :: 0 <= i < |us| && us[i] == r.value
                                    && forall j :: i < j < |us| ==> us[j].username != name
    ensures r.None? ==> forall i :: 0 <= i < |us| ==> us[i].username != name
  {
    if us == [] then None
    else if us[|us| - 1].username == name then Some(us[|us| - 1])
    else
      var init := us[..|us| - 1];
      var r := LastNamed(init, name);
      assert r.Some? ==> exists i :: 0 <= i < |us| && us[i] == r.value
                                     && forall j :: i < j < |us| ==> us[j].username != name by {
        if r.Some? {
          var i :| 0 <= i < |init| && init[i] == r.value
                   && forall j :: i < j < |init| ==> init[j].username != name;
          assert us[i] == r.value;
          forall j | i < j < |us| ensures us[j].username != name {
            if j < |init| { assert us[j] == init[j]; }
          }
        }
      }
      assert r.None? ==> forall i :: 0 <= i < |us| ==> us[i].username != name by {
        if r.None? {
          forall i | 0 <= i < |us| ensures us[i].username != name {
            if i < |init| { assert us[i] == init[i]; }
          }
        }
      }
      r
  }

  /**
   * After a series of saves, looking a name up yields the last user saved
   * under it; a name never saved is looked up as before (on the start-up
   * store: null).
   */
  lemma {:induction false} LookupAfterSaves(s: Store, us: seq<User>, name: string)
    ensures GetUserByUsername(SaveUsers(s, us), name)
            == if LastNamed(us, name).Some? then LastNamed(us, name) else GetUserByUsername(s, name)
    decreases |us|
  {
    if us != [] {
      LookupAfterSaves(s, us[..|us| - 1], name);
    }
  }

  /** On the start-up store, a name never saved is not found. */
  lemma NeverSavedIsNull(us: seq<User>, name: string)
    requires forall i :: 0 <= i < |us| ==> us[i].username != name
    ensures GetUserByUsername(SaveUsers(Empty, us), name) == None
  {
    LookupAfterSaves(Empty, us, name);
  }

  // ------------------------------------------------------------- missions

  /** The key `storage.missions[mission.id]` uses. */
  function MissionKey(m: Record): string {
    PropertyKey(Field(m, "id"))
  }

  /**
   * `saveMission(mission)`: files the record under its id. An id already
   * present keeps its place in the enumeration order; a new one goes last.
   */
  function SaveMission(s: Store, m: Record): (r: Store)
    ensures r.missions.Keys == s.missions.Keys + {MissionKey(m)}
    ensures r.missions[MissionKey(m)] == m
    ensures forall k :: k in s.missions && k != MissionKey(m) ==> r.missions[k] == s.missions[k]
    ensures MissionKey(m) in s.missions ==> r.order == s.order
    ensures MissionKey(m) !in s.missions ==> r.order == s.order + [MissionKey(m)]
    ensures r.users == s.users
    ensures Valid(s) ==> Valid(r)
  {
    var k := MissionKey(m);
    Store(s.users, s.missions[k := m], if k in s.missions then s.order else s.order + [k])
  }

  /** The records filed under `order`, in that order, whose `platoon` is `p` (strict equality). */
  function Matching(order: seq<string>, missions: map<string, Record>, p: Value): (r: seq<Record>)
    requires forall k :: k in order ==> k in missions
    ensures forall m :: m in r ==> Field(m, "platoon") == p
    ensures forall m :: m in r ==> exists k :: k in order && missions[k] == m
    ensures forall k :: k in order && Field(missions[k], "platoon") == p ==> missions[k] in r
    ensures |r| <= |order|
  {
    if order == [] then []
    else
      var m := missions[order[0]];
      var rest := Matching(order[1..], missions, p);
      assert forall k :: k in order[1..] ==> k in order;
      if Field(m, "platoon") == p then [m] + rest else rest
  }

  /**
   * `getMissionsByPlatoon(platoon)`: the stored missions whose platoon is
   * `p`, in insertion order. Each listed record is stored with that platoon,
   * every stored record with that platoon is listed, and the list is empty
   * exactly when none matches.
   */
  function GetMissionsByPlatoon(s: Store, p: Value): (r: seq<Record>)
    requires Valid(s)
    ensures forall m :: m in r ==> Field(m, "platoon") == p && m in s.missions.Values
    ensures forall k :: k in s.missions && Field(s.missions[k], "platoon") == p ==> s.missions[k] in r
    ensures r == [] <==> forall k :: k in s.missions ==> Field(s.missions[k], "platoon") != p
  {
    var r := Matching(s.order, s.missions, p);
    assert r != [] ==> exists k :: k in s.order && s.missions[k] == r[0] by {
      if r != [] {
        assert r[0] in r;
      }
    }
    r
  }

  /** Ids in `order` whose record has platoon `p`. */
  function MatchingIds(order: seq<string>, missions: map<string, Record>, p: Value): set<string>
    requires forall k :: k in order ==> k in missions
  {
    set k | k in order && Field(missions[k], "platoon") == p
  }

  /** Dropping the head of a duplicate-free sequence leaves one without the head. */
  lemma NoDuplicatesTail(order: seq<string>)
    requires order != [] && NoDuplicates(order)
    ensures NoDuplicates(order[1..]) && order[0] !in order[1..]
  {
    var t := order[1..];
    forall i, j | 0 <= i < j < |t| ensures t[i] != t[j] {
      assert t[i] == order[i + 1] && t[j] == order[j + 1];
    }
    forall i | 0 <= i < |t| ensures t[i] != order[0] {
      assert t[i] == order[i + 1];
    }
  }

  /** The matching ids of `order` are those of its tail, plus its head when that matches. */
  lemma MatchingIdsStep(order: seq<string>, missions: map<string, Record>, p: Value)
    requires order != []
    requires forall k :: k in order ==> k in missions
    ensures forall k :: k in order[1..] ==> k in missions
    ensures MatchingIds(order, missions, p) ==
            (if Field(missions[order[0]], "platoon") == p then {order[0]} else {}) + MatchingIds(order[1..], missions, p)
  {
    assert forall k :: k in order <==> k == order[0] || k in order[1..];
  }

  /** Each matching id contributes exactly one record: none is lost, none repeated. */
  lemma {:induction false} MatchingCount(order: seq<string>, missions: map<string, Record>, p: Value)
    requires NoDuplicates(order)
    requires forall k :: k in order ==> k in missions
    ensures |Matching(order, missions, p)| == |MatchingIds(order, missions, p)|
  {
    if order != [] {
      NoDuplicatesTail(order);
      MatchingIdsStep(order, missions, p);
      MatchingCount(order[1..], missions, p);
      assert order[0] !in MatchingIds(order[1..], missions, p);
    }
  }

  /** The number of missions listed is the number of stored missions with that platoon. */
  lemma GetMissionsByPlatoonCount(s: Store, p: Value)
    requires Valid(s)
    ensures |GetMissionsByPlatoon(s, p)| == |set k | k in s.missions && Field(s.missions[k], "platoon") == p|
  {
    MatchingCount(s.order, s.missions, p);
    assert MatchingIds(s.order, s.missions, p) == set k | k in s.missions && Field(s.missions[k], "platoon") == p;
  }

  /** Filtering two stretches of the order one after the other. */
  lemma {:induction false} MatchingAppend(a: seq<string>, b: seq<string>, missions: map<string, Record>, p: Value)
    requires forall k :: k in a + b ==> k in missions
    ensures Matching(a + b, missions, p) == Matching(a, missions, p) + Matching(b, missions, p)
    decreases |a|
  {
    if a != [] {
      assert (a + b)[0] == a[0];
      assert (a + b)[1..] == a[1..] + b;
      MatchingAppend(a[1..], b, missions, p);
    } else {
      assert a + b == b;
    }
  }

  /** Changing the record under an id outside `order` does not change the listing. */
  lemma {:induction false} MatchingIgnoresOthers(order: seq<string>, missions: map<string, Record>, k: string, m: Record, p: Value)
    requires forall j :: j in order ==> j in missions
    requires k !in order
    ensures Matching(order, missions[k := m], p) == Matching(order, missions, p)
  {
    if order != [] {
      MatchingIgnoresOthers(order[1..], missions, k, m, p);
    }
  }

  /**
   * Saving a record under a new id lists it after every mission saved
   * before it, when its platoon matches; the listing is otherwise unchanged.
   */
  lemma SaveNewMissionListing(s: Store, m: Record, p: Value)
    requires Valid(s)
    requires MissionKey(m) !in s.missions
    ensures GetMissionsByPlatoon(SaveMission(s, m), p)
            == GetMissionsByPlatoon(s, p) + (if Field(m, "platoon") == p then [m] else [])
  {
    var k := MissionKey(m);
    var r := SaveMission(s, m);
    assert r.order == s.order + [k];
    assert r.missions == s.missions[k := m];
    assert k !in s.order;
    MatchingAppend(s.order, [k], r.missions, p);
    MatchingIgnoresOthers(s.order, s.missions, k, m, p);
    assert Matching([k], r.missions, p) == if Field(m, "platoon") == p then [m] else [];
  }

  /**
   * `updateMission(mission)`: when a mission is filed under the update's id,
   * it becomes `{...old, ...update}`: every key the update carries takes the
   * update's value and every other key keeps the old value. Otherwise nothing
   * changes. Other missions, the order and the users never change.
   */
  function UpdateMission(s: Store, upd: Record): (r: Store)
    ensures MissionKey(upd) !in s.missions ==> r == s
    ensures r.missions.Keys == s.missions.Keys
    ensures MissionKey(upd) in s.missions ==>
              && r.missions[MissionKey(upd)].Keys == s.missions[MissionKey(upd)].Keys + upd.Keys
              && (forall f :: f in upd ==> r.missions[MissionKey(upd)][f] == upd[f])
              && (forall f :: f in s.missions[MissionKey(upd)] && f !in upd ==>
                    r.missions[MissionKey(upd)][f] == s.missions[MissionKey(upd)][f])
    ensures forall k :: k in s.missions && k != MissionKey(upd) ==> r.missions[k] == s.missions[k]
    ensures r.users == s.users && r.order == s.order
    ensures Valid(s) ==> Valid(r)
  {
    var k := MissionKey(upd);
    if k in s.missions then s.(missions := s.missions[k := s.missions[k] + upd]) else s
  }

  /**
   * `xs` without the element `x`; the remaining elements keep their order,
   * as the other keys of an object do after `delete`.
   */
  function Without(xs: seq<string>, x: string): (r: seq<string>)
    ensures forall y :: y in r <==> y in xs && y != x
    ensures x !in xs ==> r == xs
    ensures NoDuplicates(xs) && x in xs ==>
              exists i :: 0 <= i < |xs| && xs[i] == x && r == xs[..i] + xs[i + 1..]
    ensures NoDuplicates(xs) ==> NoDuplicates(r)
    decreases |xs|, 1
  {
    if xs == [] then []
    else
      var rest := Without(xs[1..], x);
      assert forall y :: y in xs <==> y == xs[0] || y in xs[1..];
      if xs[0] == x then
        if NoDuplicates(xs) then WithoutAtHead(xs, x); rest else rest
      else
        WithoutPastHead(xs, x);
        WithoutPastHeadDistinct(xs, x);
        [xs[0]] + rest
  }

  /** When `x` heads a duplicate-free `xs`, removing it leaves exactly the tail. */
  lemma WithoutAtHead(xs: seq<string>, x: string)
    requires xs != [] && xs[0] == x && NoDuplicates(xs)
    ensures Without(xs[1..], x) == xs[..0] + xs[1..]
    decreases |xs|, 0
  {
    NoDuplicatesTail(xs);
    assert xs[..0] + xs[1..] == xs[1..];
  }

  /** Removing position `i` of `t` and putting `h` in front removes position `i + 1` of `[h] + t`. */
  lemma ConsRemoval(h: string, t: seq<string>, i: nat)
    requires i < |t|
    ensures [h] + (t[..i] + t[i + 1..]) == ([h] + t)[..i + 1] + ([h] + t)[i + 2..]
  {
    assert ([h] + t)[..i + 1] == [h] + t[..i];
    assert ([h] + t)[i + 2..] == t[i + 1..];
  }

  /** Keeping a head that is not `x` shifts the removal position by one. */
  lemma WithoutPastHead(xs: seq<string>, x: string)
    requires xs != [] && xs[0] != x
    ensures NoDuplicates(xs) && x in xs ==>
              exists i :: 0 <= i < |xs| && xs[i] == x && [xs[0]] + Without(xs[1..], x) == xs[..i] + xs[i + 1..]
    decreases |xs|, 0
  {
    if NoDuplicates(xs) && x in xs {
      var t := xs[1..];
      NoDuplicatesTail(xs);
      assert x in t;
      var i :| 0 <= i < |t| && t[i] == x && Without(t, x) == t[..i] + t[i + 1..];
      ConsRemoval(xs[0], t, i);
      assert [xs[0]] + t == xs;
      assert xs[i + 1] == x;
    }
  }

  /** Keeping a head that is not `x` keeps the sequence free of repeats. */
  lemma WithoutPastHeadDistinct(xs: seq<string>, x: string)
    requires xs != [] && xs[0] != x
    ensures NoDuplicates(xs) ==> NoDuplicates([xs[0]] + Without(xs[1..], x))
    decreases |xs|, 0
  {
    if NoDuplicates(xs) {
      var rest := Without(xs[1..], x);
      var r := [xs[0]] + rest;
      NoDuplicatesTail(xs);
      forall i, j | 0 <= i < j < |r| ensures r[i] != r[j] {
        if i == 0 {
          assert r[j] == rest[j - 1];
          assert r[j] in rest;
        } else {
          assert r[i] == rest[i - 1] && r[j] == rest[j - 1];
        }
      }
    }
  }

  /**
   * `deleteMission(missionId)`: removes exactly that id when it is present
   * and changes nothing when it is absent. Users never change.
   */
  function DeleteMission(s: Store, id: string): (r: Store)
    ensures r.missions.Keys == s.missions.Keys - {id}
    ensures forall k :: k in r.missions ==> r.missions[k] == s.missions[k]
    ensures id !in s.missions ==> r == s
    ensures r.users == s.users
    ensures Valid(s) ==> Valid(r)
  {
    if id in s.missions then Store(s.users, s.missions - {id}, Without(s.order, id)) else s
  }

  /** Deleting twice leaves the same store as deleting once. */
  lemma DeleteIdempotent(s: Store, id: string)
    ensures DeleteMission(DeleteMission(s, id), id) == DeleteMission(s, id)
  {
  }

  /** The listing reads only the records filed under ids in the order. */
  lemma {:induction false} MatchingAgrees(order: seq<string>, m1: map<string, Record>, m2: map<string, Record>, p: Value)
    requires forall k :: k in order ==> k in m1 && k in m2 && m1[k] == m2[k]
    ensures Matching(order, m1, p) == Matching(order, m2, p)
  {
    if order != [] {
      assert forall k :: k in order[1..] ==> k in order;
      MatchingAgrees(order[1..], m1, m2, p);
    }
  }

  /** The listing of an order, cut around its entry at `i`. */
  lemma MatchingAround(order: seq<string>, missions: map<string, Record>, i: nat, p: Value)
    requires i < |order|
    requires forall k :: k in order ==> k in missions
    ensures Matching(order, missions, p)
            == Matching(order[..i], missions, p) + Matching([order[i]], missions, p) + Matching(order[i + 1..], missions, p)
  {
    var pre, post := order[..i], order[i + 1..];
    assert order == pre + [order[i]] + post;
    MatchingAppend(pre + [order[i]], post, missions, p);
    MatchingAppend(pre, [order[i]], missions, p);
  }

  /** The listing after deleting the id at position `i` of the order skips that position. */
  lemma DeleteListingAt(s: Store, id: string, p: Value, i: nat)
    requires Valid(s) && id in s.missions
    requires i < |s.order| && s.order[i] == id
    requires DeleteMission(s, id).order == s.order[..i] + s.order[i + 1..]
    ensures GetMissionsByPlatoon(DeleteMission(s, id), p)
            == Matching(s.order[..i], s.missions, p) + Matching(s.order[i + 1..], s.missions, p)
  {
    var r := DeleteMission(s, id);
    var pre, post := s.order[..i], s.order[i + 1..];
    assert id !in pre && id !in post by {
      forall j | 0 <= j < |pre| ensures pre[j] != id { assert pre[j] == s.order[j]; }
      forall j | 0 <= j < |post| ensures post[j] != id { assert post[j] == s.order[i + 1 + j]; }
    }
    assert forall k :: k in pre ==> k in s.order;
    assert forall k :: k in post ==> k in s.order;
    MatchingAppend(pre, post, r.missions, p);
    MatchingAgrees(pre, r.missions, s.missions, p);
    MatchingAgrees(post, r.missions, s.missions, p);
  }

  /**
   * Deleting a stored mission drops exactly its entry from every listing:
   * the missions before and after it are listed as before, in order.
   */
  lemma DeleteListing(s: Store, id: string, p: Value)
    requires Valid(s) && id in s.missions
    ensures var entry := if Field(s.missions[id], "platoon") == p then [s.missions[id]] else [];
            exists a, b :: GetMissionsByPlatoon(s, p) == a + entry + b
                           && GetMissionsByPlatoon(DeleteMission(s, id), p) == a + b
  {
    var i :| 0 <= i < |s.order| && s.order[i] == id
             && DeleteMission(s, id).order == s.order[..i] + s.order[i + 1..];
    MatchingAround(s.order, s.missions, i, p);
    DeleteListingAt(s, id, p, i);
    var a, b := Matching(s.order[..i], s.missions, p), Matching(s.order[i + 1..], s.missions, p);
    assert Matching([id], s.missions, p) == if Field(s.missions[id], "platoon") == p then [s.missions[id]] else [];
  }
}

=== FILE: storage_as_written.dfy ===
/**
 * The store's lookups as the JavaScript actually performs them. `users` and
 * `missions` are plain objects, so `storage.users[name]` and
 * `storage.missions[id]` also see the members every object inherits from
 * Object.prototype. Those members are functions, and `__proto__` reads as
 * Object.prototype itself, so all are truthy: a name such as "constructor"
 * looks registered, and an update under the id "toString" creates a
 * mission. The handlers of modules Auth and Missions use the own-property
 * lookups of module Storage; this module records the difference.
 */
module StorageAsWritten {
  import opened Maybe
  import opened JsValue
  import opened Storage

  /** The methods of Object.prototype, visible through every plain object. */
  const InheritedMethods: set<string> := {
    "constructor", "hasOwnProperty", "isPrototypeOf", "propertyIsEnumerable",
    "toLocaleString", "toString", "valueOf",
    "__defineGetter__", "__defineSetter__", "__lookupGetter__", "__lookupSetter__"
  }

  /**
   * Every inherited name a read `obj[key]` finds something truthy under: the
   * methods, and `__proto__`, which reads as Object.prototype itself.
   */
  const InheritedNames: set<string> := InheritedMethods + {"__proto__"}

  /** What `obj[key]` yields: nothing, an own property, or an inherited member. */
  datatype Lookup<T> = Absent | Own(value: T) | Inherited(name: string)

  /** `storage.users[username] || null`; any non-null answer counts as an existing user. */
  function GetUserByUsernameAsWritten(s: Store, name: string): (r: Lookup<User>)
    ensures r.Own? <==> GetUserByUsername(s, name).Some?
    ensures r.Own? ==> r.value == GetUserByUsername(s, name).value
    ensures r.Absent? <==> GetUserByUsername(s, name).None? && name !in InheritedNames
  {
    if name in s.users then Own(s.users[name])
    else if name in InheritedNames then Inherited(name)
    else Absent
  }

  /**
   * `updateMission(mission)` as written: the truthiness test also passes for
   * an inherited method, and spreading a function contributes no keys, so
   * the update record alone is stored under that id. (An update of
   * `__proto__` would replace the object's prototype rather than add a key;
   * it is not modelled and is treated like any other id.)
   */
  function UpdateMissionAsWritten(s: Store, upd: Record): (r: Store)
    ensures MissionKey(upd) in s.missions ==> r == UpdateMission(s, upd)
    ensures MissionKey(upd) !in InheritedMethods ==> r == UpdateMission(s, upd)
    ensures MissionKey(upd) in InheritedMethods && MissionKey(upd) !in s.missions ==>
              r == SaveMission(s, upd)
  {
    var k := MissionKey(upd);
    if k in s.missions then UpdateMission(s, upd)
    else if k in InheritedMethods then SaveMission(s, upd)
    else s
  }

  /**
   * On the start-up store the names "constructor" and "__proto__" are free,
   * yet the lookup finds something under each.
   */
  lemma InheritedNameLooksRegistered()
    ensures GetUserByUsername(Empty, "constructor") == None
    ensures GetUserByUsernameAsWritten(Empty, "constructor") == Inherited("constructor")
    ensures GetUserByUsername(Empty, "__proto__") == None
    ensures GetUserByUsernameAsWritten(Empty, "__proto__") == Inherited("__proto__")
  {
  }

  /** An update of the absent id "toString" creates a mission instead of doing nothing. */
  lemma InheritedIdUpdateInserts()
    ensures var upd := map["id" := Str("toString"), "platoon" := Str("Red")];
            && UpdateMission(Empty, upd) == Empty
            && "toString" in UpdateMissionAsWritten(Empty, upd).missions
  {
    var upd := map["id" := Str("toString"), "platoon" := Str("Red")];
    assert MissionKey(upd) == "toString";
  }
}
